=== FILE: README.md ===
# Configuration loading of the Play (replay) framework, modelled in Dafny

This project models `play.ConfLoader`, the class that turns one properties
file under `conf/` into the framework's effective configuration, and proves
properties of the model. A file goes through four steps:

1. **Framework-id overlay.** A key `%<id>.<rest>` is an override of `<rest>`
   that applies only when `<id>` is the running framework id (`Play.id`).
   Overrides for other ids are dropped. Every other key is copied as it is.
2. **Trimming.** Every value that is kept is trimmed as by `String.trim`.
3. **Variable substitution.** Each `${name}` in a value is replaced by the
   system property `name`, else by the environment variable `name`. If neither
   exists, the placeholder stays. This happens in one left-to-right pass.
4. **`@include.` expansion.** The value of each `@include.` key names another
   file, which is read through the same four steps. Its entries are merged over
   the including file's. The set of files already read (`Play.confs`) makes a
   second read of any file fail, so include expansion terminates.

`extractHttpPort` copies the digits at the end of the JVM command line into
`http.port`. It is modelled in corrected form. Its pattern as written also
accepts ` --http-port=<digits>`, or any other character where the dot
stands (see "## Findings"). `HttpPort.PortAsWritten` models the pattern as
written. `HttpPort.ExtractHttpPort` sets the port only for the literal
` --http.port=<digits>` suffix.

Everything is pure. These inputs become parameters:

- the file system: a map from file name to the file's key/value lines in order;
- the framework id;
- the system-property and environment lookups: partial functions from names to values;
- the seen set.

Files:

- `wrappers.dfy`: `Option` and `Result`.
- `text.dfy`: `String.trim` and the character classes the patterns use.
- `properties.dfy`: the raw lines of a file and the insertion-ordered table the loader builds.
- `overlay.dfy`: step 1 and step 2.
- `variables.dfy`: step 3.
- `includes.dfy`: `readOneConfigurationFile` and step 4.
- `httpport.dfy`: `extractHttpPort`.

A file is modelled as its lines in file order, so a key may occur more than
once. The loaded table keeps the last value for such a key (`Properties.Loaded`).
The overlay makes one put per line, in two passes. The source's two loops
make one put per distinct loaded key. Only the outcome agrees: the same
values win and, under the ordering assumption under "## Left out", the keys
land in the same order. `Overlays.OverlayMeaning` states the result against
the loaded table, and `Overlays.OverlayOrder` states the key order.

A read that gets past the recursion guard but cannot read its file fails as
`Unreadable`. Its name still joins the seen set, because `Play.confs.add` at
line 35 runs before the failure at line 40. An include that fails this way is
skipped by the file that names it (lines 92-94). For a file missing from
`conf/` this is what the source does. For an IOException on an existing file,
it holds only under an assumption: that `Play.fatalServerErrorOccurred`
(line 32) returns. That method is not part of this model (see "## Left out").
Reads that succeed also report the files whose contents they processed. This
is how the model states that no file is processed twice in one load, even
when two includes share a file.

## Model

| member | source | states |
|---|---|---|
| `Text.Trim` | framework/src/play/ConfLoader.java:43 | the trimmed value (line 43, and line 51 for overrides) is no longer than the value and is empty or starts and ends with a non-blank; `Text.TrimUnique` pins it down exactly |
| `Text.TrimUnique` | framework/src/play/ConfLoader.java:43 | trimming a blank prefix + a middle part that neither starts nor ends with a blank + a blank suffix yields exactly the middle part (blank = code point up to U+0020) |
| `Text.TrimIdempotent` | framework/src/play/ConfLoader.java:51 | trimming a trimmed value changes nothing |
| `Text.TrimBounds` | framework/src/play/ConfLoader.java:43 | the cut points: everything before the first and after the last is blank, and the kept part starts and ends with a non-blank |
| `Properties.Loaded` | framework/src/play/ConfLoader.java:28 | the table a file loads to; `Properties.LoadedLastWins` states what it holds |
| `Properties.LoadedLastWins` | framework/src/play/ConfLoader.java:28 | a loaded key is exactly one that some line has, and its value is the one on the last line with that key |
| `Properties.PutKeepsFirstOccurrences` | framework/src/play/ConfLoader.java:38-51 | putting keys one at a time into the order-keeping table lists them in the order of their first put, each once |
| `Properties.Put` | framework/src/play/ConfLoader.java:38-51 | `put` sets the key's value and leaves every other key's value alone; a new key goes last in the order, an existing key keeps its place; a table listing each key once stays so |
| `Overlays.SplitOverlayKey` | framework/src/play/ConfLoader.java:39-49 | a split key is `%` + id + `.` + rest, with id in `[a-zA-Z0-9_-]+` and rest free of line terminators |
| `Overlays.SplitOverlayKeyIff` | framework/src/play/ConfLoader.java:39-49 | the split returns `(id, rest)` if and only if the key matches `^%([a-zA-Z0-9_\-]+)\.(.*)$` with those groups, so the split is at the first dot |
| `Overlays.PlainPassMeaning` | framework/src/play/ConfLoader.java:40-45 | after the first loop, the keys are exactly the loaded keys that do not match the pattern, each with its trimmed value |
| `Overlays.InstancePassMeaning` | framework/src/play/ConfLoader.java:46-54 | the second loop adds exactly the rests of the keys `%<current id>.<rest>`, each with its trimmed value, and replaces any earlier value under that rest |
| `Overlays.OverlayMeaning` | framework/src/play/ConfLoader.java:38-54 | the output keys are exactly the plain keys plus the overridden keys of the current id; an override wins over a plain key of the same name; every value is trimmed |
| `Overlays.OtherIdIgnored` | framework/src/play/ConfLoader.java:46-54 | a line `%<other>.<rest>` for a different id changes nothing in the table: no key, no value, no position |
| `Overlays.Overlay` | framework/src/play/ConfLoader.java:38-56 | the table built from a file lists every key once |
| `Overlays.PlainPass` | framework/src/play/ConfLoader.java:40-45 | the first loop's table lists every key once; what it holds is stated by `Overlays.PlainPassMeaning` and its order by `Overlays.PlainPassOrder` |
| `Overlays.InstancePass` | framework/src/play/ConfLoader.java:46-54 | when the table it starts from lists every key once, so does its result; what it adds is stated by `Overlays.InstancePassMeaning` and its order by `Overlays.InstancePassOrder` |
| `Overlays.PlainPassOrder` | framework/src/play/ConfLoader.java:38-45 | the first loop lists the plain keys in the order of their first line in the file, each once |
| `Overlays.InstancePassOrder` | framework/src/play/ConfLoader.java:46-54 | the second loop keeps the keys already in the table where they are and appends each override rest of the current id not yet present, in the order of its first line |
| `Overlays.OverlayOrder` | framework/src/play/ConfLoader.java:38-54 | the table's keys are the plain keys in the order of their first line, then the current id's new override rests in the order of their first line |
| `Variables.PlaceholderAt` | framework/src/play/ConfLoader.java:63-69 | a match at the front of a value is `${` + a non-empty name without `}` + `}` |
| `Variables.PlaceholderAtIff` | framework/src/play/ConfLoader.java:63-69 | the pattern `\$\{([^}]+)}` matches at the front of a value with group `name` if and only if the value starts with `${name}` and `name` is non-empty and has no `}` |
| `Variables.Resolve` | framework/src/play/ConfLoader.java:69-77 | what a matched name becomes; `Variables.SubstituteFirst` states that a match is replaced by it and `Variables.UnresolvedIdentity` that an unknown name stays verbatim |
| `Variables.Substitute` | framework/src/play/ConfLoader.java:66-80 | the find/appendReplacement/appendTail pass over one value; `Variables.SubstituteFirst`, `Variables.NoPlaceholderUnchanged` and `Variables.EmptyBracesSkipped` state what it does |
| `Variables.SubstituteFirst` | framework/src/play/ConfLoader.java:63-80 | when no match starts in the literal text before a placeholder (that text may hold a `${` that starts none, such as `${}`), the text is kept, the placeholder is replaced by the system property, else the environment variable, else left verbatim, and the scan resumes after its `}`, so replacement text is never rescanned |
| `Variables.EmptyBracesSkipped` | framework/src/play/ConfLoader.java:63-68 | in `${}${a}` the `${}` is no match, because a name needs a character; it stays, and the `${a}` after it is replaced |
| `Variables.NoPlaceholderUnchanged` | framework/src/play/ConfLoader.java:64-81 | a value in which the pattern matches nowhere comes out unchanged |
| `Variables.UnresolvedIdentity` | framework/src/play/ConfLoader.java:70-77 | when neither lookup knows any name, every value comes out unchanged |
| `Variables.ResolveVariables` | framework/src/play/ConfLoader.java:62-83 | keys and their order never change; each value is substituted on its own from its original text; a value without a match is left alone |
| `Variables.EscapeBackslashes` | framework/src/play/ConfLoader.java:78 | doubling backslashes adds no new characters and never shortens the value |
| `Variables.ReplacementText` | framework/src/play/ConfLoader.java:78 | how `appendReplacement` reads its replacement string; `Variables.EscapedReplacementIsLiteral` states what it yields for an escaped value |
| `Variables.EscapedReplacementIsLiteral` | framework/src/play/ConfLoader.java:78 | for a resolved value without `$`, doubling its backslashes makes `appendReplacement` append the value itself |
| `Includes.IncludeKeys` | framework/src/play/ConfLoader.java:87-88 | the include keys are exactly the table's keys that start with `@include.`; `Includes.IncludeKeysAppend` states that they keep table order |
| `Includes.IncludeKeysAppend` | framework/src/play/ConfLoader.java:87-88 | the include keys of two runs of keys are those of the first run followed by those of the second, so the loop visits the include keys in the table's iteration order |
| `Includes.FileTable` | framework/src/play/ConfLoader.java:38-57 | the table before include expansion has the overlay's keys, each once |
| `Includes.ReadFile` | framework/src/play/ConfLoader.java:20-59 | a file already seen fails without effect; an unreadable file joins the seen set and fails; a read succeeds exactly when the file is unseen and exists; the seen set only grows and always contains the file afterwards; no file is processed twice, and none that was seen before; a successful read processed the file first, and its result defines every key of the file's own overlaid, substituted table; a failed read adds exactly the file to the seen set; every existing file that joins the seen set during a read is processed by it; a file without include keys reads as exactly that table and adds only itself |
| `Includes.IncludeFold` | framework/src/play/ConfLoader.java:86-96 | one result and one start set per include target (the value of each include key, in table order); the first read starts from the given seen set and each later one from a superset that holds every earlier target; a read succeeds exactly when its target exists and is outside its start set, and otherwise fails as a recursive include when the target is in that set and as unreadable when not; so a target seen before the run, or named by an earlier include, fails as a recursive include; a success defines every key of its target's own table, is exactly that table when the target has no include keys, and its target is on the processed trail; no file is processed twice; a failed read, and a successful read of a file without include keys, add exactly their target to the seen set the next read starts from; an existing file that joins the seen set during the run was processed by it |
| `Includes.ResolveIncludes` | framework/src/play/ConfLoader.java:85-98 | the reads are made over the include targets in table order, as `Includes.IncludeFold` states; a table without include keys is returned unchanged with no reads; the result defines the table's keys plus those of the successful includes; a key some successful include defines has the value of the last such include, so included values win; every other key keeps the table's value, so a failed include is skipped |
| `Includes.FirstIncludeMerged` | framework/src/play/ConfLoader.java:87-97 | when the first include names an existing file not yet seen, that read succeeds and every key of the file's own table is defined in the expanded table |
| `Includes.FlatRunStarts` | framework/src/play/ConfLoader.java:22-35 | while every earlier include names a missing file or a file without include keys, each read starts from the caller's seen set plus exactly the earlier targets |
| `Includes.IncludeMerged` | framework/src/play/ConfLoader.java:87-97 | an include whose target exists, was not seen before the expansion, is not named by an earlier include, and follows only includes of missing or include-free files, is read successfully, and every key of its own table is defined in the expanded table |
| `Includes.MergeSuccesses` | framework/src/play/ConfLoader.java:91-97 | the `toInclude.putAll` fold over the reads; `Includes.MergeSuccessesMeaning` states what it holds |
| `Includes.MergeSuccessesMeaning` | framework/src/play/ConfLoader.java:91-97 | the merge defines exactly the keys some successful include defines, with the value from the last such include; failed includes contribute nothing |
| `HttpPort.PortAsWritten` | framework/src/play/ConfLoader.java:102-103 | a match means the command line is a single-line prefix, ` --http`, any non-line-terminator character, `port=`, then the non-empty digit run that ends it |
| `HttpPort.PortAsWrittenComplete` | framework/src/play/ConfLoader.java:102-103 | every way the pattern as written can match is found, with the same port |
| `HttpPort.HttpPortArg` | framework/src/play/ConfLoader.java:102-104 | a match means the command line ends in the literal ` --http.port=` followed by the digits returned |
| `HttpPort.HttpPortArgComplete` | framework/src/play/ConfLoader.java:102-104 | every command line ending in ` --http.port=<digits>` yields exactly those digits |
| `HttpPort.HttpPortArgNeedsDot` | framework/src/play/ConfLoader.java:102 | with any other character in place of the dot, the corrected match fails |
| `HttpPort.WildcardDotAcceptsOtherFlags` | framework/src/play/ConfLoader.java:102 | ` --http-port=9000` sets the port under the pattern as written, but not under the corrected one |
| `HttpPort.CommandLine` | framework/src/play/ConfLoader.java:101 | the command line the pattern is matched against; `HttpPort.UnsetCommandLineKeepsConfig` states what its default `""` means |
| `HttpPort.UnsetCommandLineKeepsConfig` | framework/src/play/ConfLoader.java:101-105 | without `sun.java.command` the command line is `""`, which no flag matches, so the configuration is unchanged |
| `HttpPort.ExtractHttpPort` | framework/src/play/ConfLoader.java:100-106 | with a ` --http.port=<digits>` suffix on `sun.java.command`, `http.port` becomes the digits and nothing else changes; otherwise the configuration is unchanged |

## Left out

- Reading files is left out: `VirtualFile`, `IO.readUtf8Properties` and the properties-file syntax. A file is given as its key/value lines.
- A file that cannot be read is a name missing from the file-system map. The model reads it as a failure that adds the name to the seen set and that the including file skips. The source has two cases.
  - A file missing from `conf/` gives a null `VirtualFile`. `conf.inputstream()` at line 28 then throws a NullPointerException with no cause, so the test at line 30 fails and nothing is logged. Line 35 adds null to the seen set, and the read fails with another NullPointerException at line 40. The model matches this case, except that it records the name rather than null.
  - An IOException while reading an existing file is logged, and `Play.fatalServerErrorOccurred` is called at line 32. That method is not part of this model, and what it does to the running process is unknown here. The model assumes it returns. Under that assumption, line 35 adds the file to the seen set, and the read fails at line 40 on the null table. If the method stops the server instead, the model does not describe this case.
- `Play.getVirtualFile` is not part of this model. The seen set holds file names, not `VirtualFile`s. So two names for one file count as two files, and missing files do not share a null entry.
- Logging is left out, because it has no effect on the configuration.
- `System.getProperty` and `System.getenv` become the two lookup parameters. `Play.id` becomes the framework-id parameter and is never null.
- `OrderSafeProperties` is not part of this model. The model assumes it iterates keys in first-insertion order, and that putting an existing key keeps its place. It also assumes that `IO.readUtf8Properties` loads into such a table, so the loops at lines 40 and 46 visit keys in the order of their first line. Order decides the order in which include keys are read, and with it which include's value wins.
- Includes.IncludeFold: for a successful read of a file that itself has include keys, the contract bounds what the read adds to the seen set only through the files processed during the run. It does not state which nested reads were made. `Includes.IncludeMerged` therefore covers an include only when every earlier include names a missing file or a file without include keys.
- Variables.Substitute: appends the resolved value literally. `appendReplacement` does that only for values without `$`, as `Variables.EscapedReplacementIsLiteral` shows. A `$` in a resolved value would be read as a group reference, and that case is not modelled.
- The `.` of the jregex pattern in `extractHttpPort` is assumed to exclude the same line terminators as java.util.regex does.
- Exceptions other than the recursive-include guard and the unreadable file are left out. For example, an out-of-memory error is not modelled.
- How the top-level load starts (the initial seen set, and storing into `Play.configuration`) lies outside `ConfLoader`. Only `extractHttpPort`'s own update is modelled.
- `framework/test/play/mvc/ActionInvokerTest.java` is left out. It exercises reflective controller dispatch, interceptors and session stores through mocks.
- `framework/test/play/mvc/ScopeTest.java` is left out. It tests `Params`, `Session` and `Flash`, and `Scope.java` is not part of this model.

## Findings

| source | as written | input that shows it | evidently intended | confidence | as-written member | corrected member |
|---|---|---|---|---|---|---|
| framework/src/play/ConfLoader.java:102 | the `.` in `http.port` inside `.* --http.port=({port}\d+)` is unescaped, so it matches any character | command line ` --http-port=9000` sets `http.port` to `9000` | only the literal flag ` --http.port=` sets the port | medium, not executed | `HttpPort.PortAsWritten` (with `HttpPort.WildcardDotAcceptsOtherFlags`) | `HttpPort.HttpPortArg` (with `HttpPort.HttpPortArgComplete`, `HttpPort.HttpPortArgNeedsDot`); `HttpPort.ExtractHttpPort` uses it |

=== FILE: httpport.dfy ===
/**
 * ConfLoader.extractHttpPort: when the JVM command line ends in
 * ` --http.port=<digits>`, the configuration's `http.port` becomes those digits.
 */
module HttpPort {
  import opened Wrappers
  import opened Text
  import opened Properties
  import opened Variables

  /** Length of ` --http.port=`, the fixed text between `.*` and the digits. */
  const FlagLength: nat := 13

  /** The first index `j <= hi` such that `s[j..hi]` is all digits and `s[j - 1]`, if any, is not. */
  function DigitRunStart(s: string, hi: nat): (j: nat)
    requires hi <= |s|
    ensures j <= hi
    ensures forall k :: j <= k < hi ==> IsDigit(s[k])
    ensures j > 0 ==> !IsDigit(s[j - 1])
    decreases hi
  {
    if hi == 0 || !IsDigit(s[hi - 1]) then hi else DigitRunStart(s, hi - 1)
  }

  lemma {:induction false} DigitRunStartAt(s: string, hi: nat, q: nat)
    requires q <= hi <= |s|
    requires forall k :: q <= k < hi ==> IsDigit(s[k])
    requires q > 0 ==> !IsDigit(s[q - 1])
    ensures DigitRunStart(s, hi) == q
    decreases hi
  {
    if q < hi {
      DigitRunStartAt(s, hi - 1, q);
    }
  }

  /**
   * `cmd` matches `.* --http.port=({port}\d+)` as the pattern is written: the
   * unescaped `.` between `http` and `port` stands for any character `c`
   * other than a line terminator.
   */
  ghost predicate MatchesAsWritten(cmd: string, prefix: string, c: char, port: string) {
    && cmd == prefix + " --http" + [c] + "port=" + port
    && SingleLine(prefix)
    && !IsLineTerminator(c)
    && |port| > 0 && AllDigits(port)
  }

  /** `cmd` ends in the literal flag ` --http.port=` followed by the digits `port`. */
  ghost predicate MatchesFlag(cmd: string, prefix: string, port: string) {
    MatchesAsWritten(cmd, prefix, '.', port)
  }

  /**
   * The whole-string match of `.* --http.port=(\d+)` with the `.` in
   * `http.port` read as the wildcard it is; the port group on a match.
   */
  function PortAsWritten(cmd: string): (r: Option<string>)
    ensures r.Some? ==>
      var n := |cmd| - |r.value| - FlagLength;
      0 <= n && MatchesAsWritten(cmd, cmd[..n], cmd[n + 7], r.value)
  {
    var j := DigitRunStart(cmd, |cmd|);
    if j == |cmd| || j < FlagLength then None
    else
      var n := j - FlagLength;
      if cmd[n..n + 7] == " --http" && !IsLineTerminator(cmd[n + 7]) && cmd[n + 8..j] == "port="
         && SingleLine(cmd[..n])
      then
        assert cmd == cmd[..n] + cmd[n..n + 7] + [cmd[n + 7]] + cmd[n + 8..j] + cmd[j..];
        Some(cmd[j..])
      else None
  }

  /**
   * The intended match: the flag ` --http.port=` taken literally, then the
   * digits up to the end of the command line.
   */
  function HttpPortArg(cmd: string): (r: Option<string>)
    ensures r.Some? ==>
      var n := |cmd| - |r.value| - FlagLength;
      0 <= n && MatchesFlag(cmd, cmd[..n], r.value)
  {
    var j := DigitRunStart(cmd, |cmd|);
    if j == |cmd| || j < FlagLength then None
    else
      var n := j - FlagLength;
      if cmd[n..j] == " --http.port=" && SingleLine(cmd[..n]) then
        assert cmd == cmd[..n] + cmd[n..j] + cmd[j..];
        assert " --http" + ['.'] + "port=" == " --http.port=";
        Some(cmd[j..])
      else None
  }

  /** Every way of matching the pattern as written is found, with the same port. */
  lemma PortAsWrittenComplete(cmd: string, prefix: string, c: char, port: string)
    requires MatchesAsWritten(cmd, prefix, c, port)
    ensures PortAsWritten(cmd) == Some(port)
  {
    var j := |prefix| + FlagLength;
    assert cmd[j - 1] == '=';
    assert forall k :: j <= k < |cmd| ==> cmd[k] == port[k - j];
    DigitRunStartAt(cmd, |cmd|, j);
    assert cmd[..|prefix|] == prefix;
    assert cmd[|prefix|..|prefix| + 7] == " --http";
    assert cmd[|prefix| + 7] == c;
    assert cmd[|prefix| + 8..j] == "port=";
    assert cmd[j..] == port;
  }

  /** Every command line that ends in the literal flag and digits is found, with those digits. */
  lemma HttpPortArgComplete(cmd: string, prefix: string, port: string)
    requires MatchesFlag(cmd, prefix, port)
    ensures HttpPortArg(cmd) == Some(port)
  {
    var j := |prefix| + FlagLength;
    assert cmd[j - 1] == '=';
    assert forall k :: j <= k < |cmd| ==> cmd[k] == port[k - j];
    DigitRunStartAt(cmd, |cmd|, j);
    assert cmd[..|prefix|] == prefix;
    assert cmd[|prefix|..j] == " --http.port=";
    assert cmd[j..] == port;
  }

  /**
   * A command line whose flag has any other character where the dot of
   * `http.port` stands does not carry the intended flag.
   */
  lemma HttpPortArgNeedsDot(cmd: string, prefix: string, c: char, port: string)
    requires MatchesAsWritten(cmd, prefix, c, port) && c != '.'
    ensures HttpPortArg(cmd) == None
  {
    var j := |prefix| + FlagLength;
    assert cmd[j - 1] == '=';
    assert forall k :: j <= k < |cmd| ==> cmd[k] == port[k - j];
    DigitRunStartAt(cmd, |cmd|, j);
    assert cmd[|prefix|..j][7] == c;
  }

  /**
   * The pattern as written also takes `--http-port=`, `--http_port=` and the
   * like: ` --http-port=9000` sets the port, although it does not carry the
   * flag ` --http.port=`.
   */
  lemma WildcardDotAcceptsOtherFlags()
    ensures PortAsWritten(" --http-port=9000") == Some("9000")
    ensures HttpPortArg(" --http-port=9000") == None
  {
    var cmd, port := " --http-port=9000", "9000";
    assert cmd == [] + " --http" + ['-'] + "port=" + port;
    assert AllDigits(port) && SingleLine([]);
    PortAsWrittenComplete(cmd, [], '-', port);
    HttpPortArgNeedsDot(cmd, [], '-', port);
  }

  /** The command line the JVM was started with: the `sun.java.command` property, "" when it is unset. */
  function CommandLine(sys: Lookup): string {
    match sys("sun.java.command")
    case Some(c) => c
    case None => ""
  }

  lemma HttpPortArgCompleteAll(cmd: string)
    ensures forall prefix, port :: MatchesFlag(cmd, prefix, port) ==> HttpPortArg(cmd) == Some(port)
  {
    forall prefix, port | MatchesFlag(cmd, prefix, port) ensures HttpPortArg(cmd) == Some(port) {
      HttpPortArgComplete(cmd, prefix, port);
    }
  }

  /**
   * extractHttpPort: when the command line ends in ` --http.port=<digits>`,
   * `http.port` is set to the digits and nothing else changes; otherwise the
   * configuration is left as it is.
   */
  function ExtractHttpPort(conf: Config, sys: Lookup): (r: Config)
    ensures forall prefix, port :: MatchesFlag(CommandLine(sys), prefix, port) ==> r == conf["http.port" := port]
    ensures (forall prefix, port :: !MatchesFlag(CommandLine(sys), prefix, port)) ==> r == conf
  {
    var cmd := CommandLine(sys);
    HttpPortArgCompleteAll(cmd);
    match HttpPortArg(cmd)
    case Some(port) => conf["http.port" := port]
    case None => conf
  }

  /** Without `sun.java.command` the command line is empty, which no flag matches, so nothing changes. */
  lemma UnsetCommandLineKeepsConfig(conf: Config, sys: Lookup)
    requires sys("sun.java.command") == None
    ensures ExtractHttpPort(conf, sys) == conf
  {
  }
}

=== FILE: includes.dfy ===
/**
 * Reading one configuration file (ConfLoader.readOneConfigurationFile) with
 * its `@include.` expansion (ConfLoader.resolveIncludes). The file system,
 * the framework id and the two lookups are parameters; the global set of files
 * already read (`Play.confs`) is threaded through every call.
 */
module Includes {
  import opened Wrappers
  import opened Text
  import opened Properties
  import opened Overlays
  import opened Variables

  /** The files under `conf/` by name, each as its key/value lines in order; an absent name cannot be read. */
  type FileSystem = map<string, seq<Entry>>

  /** What the loader takes from the running process. */
  datatype Environment = Environment(frameworkId: string, sysProps: Lookup, envVars: Lookup)

  /** Why a read fails: the file was read before, or it could not be read at all. */
  datatype ReadError = RecursiveInclude(file: string) | Unreadable(file: string)

  /**
   * A read: its result, the seen set after it, and the names of the files
   * whose contents it processed, in the order they were processed.
   */
  datatype Outcome = Outcome(result: Result<Config, ReadError>, seen: set<string>, processed: seq<string>)

  /**
   * The reads of a run of includes: one result per include key, in order,
   * and the seen set each read started from.
   */
  datatype Reads = Reads(results: seq<Result<Config, ReadError>>, seen: set<string>, processed: seq<string>, starts: seq<set<string>>)

  /** An include expansion: the merged configuration together with the reads behind it. */
  datatype Expansion = Expansion(config: Config, fold: Reads)

  const IncludePrefix: string := "@include."

  /** The include keys of a table, in table order. */
  function IncludeKeys(keys: seq<string>): (r: seq<string>)
    ensures forall k :: k in r <==> k in keys && StartsWith(k, IncludePrefix)
  {
    if keys == [] then []
    else (if StartsWith(keys[0], IncludePrefix) then [keys[0]] else []) + IncludeKeys(keys[1..])
  }

  /** Filtering distributes over concatenation, so the include keys keep table order. */
  lemma {:induction false} IncludeKeysAppend(a: seq<string>, b: seq<string>)
    ensures IncludeKeys(a + b) == IncludeKeys(a) + IncludeKeys(b)
  {
    if a != [] {
      assert (a + b)[1..] == a[1..] + b;
      IncludeKeysAppend(a[1..], b);
    } else {
      assert a + b == b;
    }
  }

  /** The include targets of a table: the value of each include key, in table order. */
  function IncludeTargets(p: Props): (t: seq<string>)
    requires Valid(p)
    ensures |t| == |IncludeKeys(p.keys)|
    ensures forall i :: 0 <= i < |t| ==> IncludeKeys(p.keys)[i] in p.values && t[i] == p.values[IncludeKeys(p.keys)[i]]
  {
    var keys := IncludeKeys(p.keys);
    seq(|keys|, i requires 0 <= i < |keys| => assert keys[i] in keys; p.values[keys[i]])
  }

  /** A read that succeeded and defines `k`. */
  predicate Provides(r: Result<Config, ReadError>, k: string) {
    r.Success? && k in r.value
  }

  /** `toInclude.putAll(...)` over the successful reads in order: a later read replaces an earlier one's value. */
  function MergeSuccesses(rs: seq<Result<Config, ReadError>>): Config {
    if rs == [] then map[]
    else
      var last := rs[|rs| - 1];
      MergeSuccesses(rs[..|rs| - 1]) + (if last.Success? then last.value else map[])
  }

  /** The number of files that can still be read: the termination measure of include expansion. */
  ghost function Unseen(fs: FileSystem, seen: set<string>): nat {
    |fs.Keys - seen|
  }

  /**
   * The files processed between the seen sets `before` and `after`: each is a
   * file of `fs`, none is processed twice, none was seen before, all are seen after.
   */
  ghost predicate ProcessedOnce(fs: FileSystem, before: set<string>, after: set<string>, processed: seq<string>) {
    && NoDuplicates(processed)
    && forall i :: 0 <= i < |processed| ==> processed[i] in fs && processed[i] !in before && processed[i] in after
  }

  lemma SubsetCard<T>(a: set<T>, b: set<T>)
    requires a <= b
    ensures |a| <= |b|
  {
    if a != {} {
      var x :| x in a;
      SubsetCard(a - {x}, b - {x});
    }
  }

  lemma UnseenMonotone(fs: FileSystem, seen: set<string>, seen': set<string>)
    requires seen <= seen'
    ensures Unseen(fs, seen') <= Unseen(fs, seen)
  {
    SubsetCard(fs.Keys - seen', fs.Keys - seen);
  }

  lemma UnseenShrinks(fs: FileSystem, seen: set<string>, file: string)
    requires file in fs && file !in seen
    ensures Unseen(fs, seen + {file}) < Unseen(fs, seen)
  {
    assert fs.Keys - (seen + {file}) == (fs.Keys - seen) - {file};
  }

  lemma ProcessedOnceConcat(fs: FileSystem, s0: set<string>, s1: set<string>, s2: set<string>, p1: seq<string>, p2: seq<string>)
    requires s0 <= s1 <= s2
    requires ProcessedOnce(fs, s0, s1, p1) && ProcessedOnce(fs, s1, s2, p2)
    ensures ProcessedOnce(fs, s0, s2, p1 + p2)
  {
    var p := p1 + p2;
    forall i, j | 0 <= i < j < |p| ensures p[i] != p[j] {
      if j < |p1| {
        assert p[i] == p1[i] && p[j] == p1[j];
      } else if i < |p1| {
        assert p[i] == p1[i] && p[j] == p2[j - |p1|];
      } else {
        assert p[i] == p2[i - |p1|] && p[j] == p2[j - |p1|];
      }
    }
  }

  /**
   * readOneConfigurationFile: a file already seen fails without effect; a file
   * that cannot be read is marked seen and fails; otherwise the file is marked
   * seen, its lines go through the overlay (with trimming), variable
   * substitution and include expansion, and the merged table is the result.
   * A file without include keys reads as its own table and adds only itself.
   */
  function ReadFile(fs: FileSystem, env: Environment, file: string, seen: set<string>): (o: Outcome)
    ensures seen <= o.seen && file in o.seen
    ensures o.result.Success? <==> file !in seen && file in fs
    ensures file in seen ==> o == Outcome(Failure(RecursiveInclude(file)), seen, [])
    ensures file !in seen && file !in fs ==> o == Outcome(Failure(Unreadable(file)), seen + {file}, [])
    ensures ProcessedOnce(fs, seen, o.seen, o.processed)
    ensures o.result.Success? ==> o.processed != [] && o.processed[0] == file
    ensures o.result.Success? ==> forall k :: k in FileTable(fs[file], env).values ==> k in o.result.value
    ensures o.result.Failure? ==> o.seen == seen + {file}
    ensures forall b :: b in fs && b in o.seen && b !in seen ==> b in o.processed
    ensures file !in seen && file in fs && IncludeKeys(FileTable(fs[file], env).keys) == [] ==>
      o == Outcome(Success(FileTable(fs[file], env).values), seen + {file}, [file])
    decreases Unseen(fs, seen), 0, 0
  {
    if file in seen then Outcome(Failure(RecursiveInclude(file)), seen, [])
    else if file !in fs then Outcome(Failure(Unreadable(file)), seen + {file}, [])
    else
      var props := FileTable(fs[file], env);
      var seen1 := seen + {file};
      UnseenShrinks(fs, seen, file);
      var x := ResolveIncludes(fs, env, props, seen1);
      ReadOutcomeFacts(fs, env, file, seen, x);
      Outcome(Success(x.config), x.fold.seen, [file] + x.fold.processed)
  }

  /** The facts behind ReadFile's contract for a file that is read and expanded into `x`. */
  lemma ReadOutcomeFacts(fs: FileSystem, env: Environment, file: string, seen: set<string>, x: Expansion)
    requires file in fs && file !in seen
    requires seen + {file} <= x.fold.seen
    requires ProcessedOnce(fs, seen + {file}, x.fold.seen, x.fold.processed)
    requires forall b :: b in fs && b in x.fold.seen && b !in seen + {file} ==> b in x.fold.processed
    requires forall k :: k in FileTable(fs[file], env).values ==> k in x.config
    requires IncludeKeys(FileTable(fs[file], env).keys) == [] ==>
      x == Expansion(FileTable(fs[file], env).values, Reads([], seen + {file}, [], []))
    ensures var o := Outcome(Success(x.config), x.fold.seen, [file] + x.fold.processed);
      && seen <= o.seen && file in o.seen
      && ProcessedOnce(fs, seen, o.seen, o.processed)
      && o.processed != [] && o.processed[0] == file
      && (forall b :: b in fs && b in o.seen && b !in seen ==> b in o.processed)
      && (IncludeKeys(FileTable(fs[file], env).keys) == [] ==>
            o == Outcome(Success(FileTable(fs[file], env).values), seen + {file}, [file]))
  {
    ProcessedOnceConcat(fs, seen, seen + {file}, x.fold.seen, [file], x.fold.processed);
    assert [file] + [] == [file];
  }

  /**
   * resolveIncludes: reads the target of every include key in table order and
   * merges the successful reads over the table. The result defines the
   * table's keys and those of the successful reads; a key some successful
   * read defines has the value of the last such read, so included values win
   * and a later include wins over an earlier one; every other key keeps the
   * table's value, so a failed include leaves the table as it was.
   */
  function ResolveIncludes(fs: FileSystem, env: Environment, props: Props, seen: set<string>): (x: Expansion)
    requires Valid(props)
    ensures seen <= x.fold.seen
    ensures ProcessedOnce(fs, seen, x.fold.seen, x.fold.processed)
    ensures |x.fold.results| == |IncludeKeys(props.keys)|
    ensures ReadsFit(fs, env, IncludeTargets(props), seen, x.fold)
    ensures forall b :: b in fs && b in x.fold.seen && b !in seen ==> b in x.fold.processed
    ensures IncludeKeys(props.keys) == [] ==> x == Expansion(props.values, Reads([], seen, [], []))
    ensures forall k :: k in x.config <==>
      k in props.values || exists i :: 0 <= i < |x.fold.results| && Provides(x.fold.results[i], k)
    ensures forall k, i :: LastProvider(x.fold.results, i, k) ==> k in x.config && x.config[k] == x.fold.results[i].value[k]
    ensures forall k :: k in props.values && (forall i :: 0 <= i < |x.fold.results| ==> !Provides(x.fold.results[i], k)) ==>
      x.config[k] == props.values[k]
    decreases Unseen(fs, seen), 2, 0
  {
    var fold := IncludeFold(fs, env, IncludeTargets(props), seen);
    ExpansionFacts(fs, env, props, seen, fold);
    Expansion(props.values + MergeSuccesses(fold.results), fold)
  }

  /** The facts behind ResolveIncludes' contract, for the reads of its include keys. */
  lemma ExpansionFacts(fs: FileSystem, env: Environment, props: Props, seen: set<string>, fold: Reads)
    requires Valid(props)
    requires ReadsTrail(fs, IncludeTargets(props), seen, fold)
    ensures var x := Expansion(props.values + MergeSuccesses(fold.results), fold);
      && seen <= x.fold.seen
      && ProcessedOnce(fs, seen, x.fold.seen, x.fold.processed)
      && |x.fold.results| == |IncludeKeys(props.keys)|
      && (forall k :: k in x.config <==>
            k in props.values || exists i :: 0 <= i < |x.fold.results| && Provides(x.fold.results[i], k))
      && (forall k, i :: LastProvider(x.fold.results, i, k) ==> k in x.config && x.config[k] == x.fold.results[i].value[k])
      && (forall k :: k in props.values && (forall i :: 0 <= i < |x.fold.results| ==> !Provides(x.fold.results[i], k)) ==>
            x.config[k] == props.values[k])
      && (fold.results == [] ==> x.config == props.values)
  {
    MergeOverTable(props.values, fold.results);
    assert fold.results == [] ==> props.values + MergeSuccesses(fold.results) == props.values + map[] == props.values;
  }

  /**
   * What the reads of a run of include targets promise (the three parts follow).
   * Read `i` starts from the seen set `starts[i]`: the first from `seen`,
   * each later one from a set that holds every earlier target.
   */
  ghost predicate ReadsFit(fs: FileSystem, env: Environment, targets: seq<string>, seen: set<string>, f: Reads)
  {
    && ReadsTrail(fs, targets, seen, f)
    && ReadsVerdicts(fs, targets, seen, f)
    && ReadsContents(fs, env, targets, f)
    && ReadsGrowth(fs, env, targets, seen, f)
  }

  /** The seen set read `i` leaves behind: the next read's start set, or the final seen set after the last read. */
  ghost function NextStart(f: Reads, i: nat): set<string> {
    if i + 1 < |f.starts| then f.starts[i + 1] else f.seen
  }

  /**
   * What each read adds to the seen set: an empty run adds nothing; a failed
   * read, and a successful read of a file without include keys, add exactly
   * their target; and every file of `fs` that joined the seen set during the
   * run was processed by it.
   */
  ghost predicate ReadsGrowth(fs: FileSystem, env: Environment, targets: seq<string>, seen: set<string>, f: Reads)
  {
    && |f.results| == |targets|
    && |f.starts| == |targets|
    && (targets == [] ==> f.seen == seen)
    && (forall i :: 0 <= i < |targets| && f.results[i].Failure? ==> NextStart(f, i) == f.starts[i] + {targets[i]})
    && (forall i :: 0 <= i < |targets| && f.results[i].Success? && targets[i] in fs ==>
         IncludeKeys(FileTable(fs[targets[i]], env).keys) == [] ==> NextStart(f, i) == f.starts[i] + {targets[i]})
    && (forall b :: b in fs && b in f.seen && b !in seen ==> b in f.processed)
  }

  /**
   * The seen sets and the trail: the seen set only grows, every target ends
   * up seen and is in the set every later read starts from, every file is
   * processed at most once, and a successful read processed its target.
   */
  ghost predicate ReadsTrail(fs: FileSystem, targets: seq<string>, seen: set<string>, f: Reads)
  {
    && seen <= f.seen
    && ProcessedOnce(fs, seen, f.seen, f.processed)
    && |f.results| == |targets|
    && |f.starts| == |targets|
    && (forall i :: 0 <= i < |targets| ==> targets[i] in f.seen)
    && (|targets| > 0 ==> f.starts[0] == seen)
    && (forall i :: 0 <= i < |targets| ==> seen <= f.starts[i] <= f.seen)
    && (forall i :: 0 <= i < |targets| - 1 ==> f.starts[i] <= f.starts[i + 1] && targets[i] in f.starts[i + 1])
    && (forall i :: 0 <= i < |targets| && f.results[i].Success? ==> targets[i] in f.processed)
  }

  /**
   * The verdicts: a read succeeds exactly when its target is a file of `fs`
   * outside the set it starts from; otherwise it fails as a recursive include
   * when the target is in that set and as unreadable when not. So a target
   * seen before the run, or named by an earlier key, fails as a recursive
   * include.
   */
  ghost predicate ReadsVerdicts(fs: FileSystem, targets: seq<string>, seen: set<string>, f: Reads)
  {
    && |f.results| == |targets|
    && |f.starts| == |targets|
    && (forall i :: 0 <= i < |targets| ==>
         (f.results[i].Success? <==> targets[i] in fs && targets[i] !in f.starts[i]))
    && (forall i :: 0 <= i < |targets| && f.results[i].Failure? ==>
         f.results[i].error == if targets[i] in f.starts[i] then RecursiveInclude(targets[i]) else Unreadable(targets[i]))
    && (forall i :: 0 <= i < |targets| && f.results[i].Failure? ==> f.results[i].error.file == targets[i])
    && (forall i :: 0 <= i < |targets| && f.results[i].Success? ==> targets[i] in fs && targets[i] !in seen)
    && (forall i :: 0 <= i < |targets| && targets[i] in seen ==>
         f.results[i] == Failure(RecursiveInclude(targets[i])))
    && (forall i, j :: 0 <= i < j < |targets| && targets[i] == targets[j] ==>
         f.results[j] == Failure(RecursiveInclude(targets[j])))
  }

  /**
   * What a successful read holds: every key of the target's own table, and
   * exactly that table when the target has no include keys.
   */
  ghost predicate ReadsContents(fs: FileSystem, env: Environment, targets: seq<string>, f: Reads)
  {
    && |f.results| == |targets|
    && (forall i :: 0 <= i < |targets| && f.results[i].Success? ==> targets[i] in fs)
    && (forall i :: 0 <= i < |targets| && f.results[i].Success? ==>
         forall k :: k in FileTable(fs[targets[i]], env).values ==> k in f.results[i].value)
    && (forall i :: 0 <= i < |targets| && f.results[i].Success? && IncludeKeys(FileTable(fs[targets[i]], env).keys) == [] ==>
         f.results[i].value == FileTable(fs[targets[i]], env).values)
  }

  /** One more read in front of a run of reads keeps ReadsTrail. */
  lemma ReadsTrailCons(fs: FileSystem, targets: seq<string>, seen: set<string>, o: Outcome, rest: Reads)
    requires |targets| > 0
    requires seen <= o.seen && targets[0] in o.seen
    requires ProcessedOnce(fs, seen, o.seen, o.processed)
    requires o.result.Success? ==> o.processed != [] && o.processed[0] == targets[0]
    requires ReadsTrail(fs, targets[1..], o.seen, rest)
    ensures ReadsTrail(fs, targets, seen, Reads([o.result] + rest.results, rest.seen, o.processed + rest.processed, [seen] + rest.starts))
  {
    ProcessedOnceConcat(fs, seen, o.seen, rest.seen, o.processed, rest.processed);
    var f := Reads([o.result] + rest.results, rest.seen, o.processed + rest.processed, [seen] + rest.starts);
    forall i | 0 <= i < |targets| ensures targets[i] in f.seen && seen <= f.starts[i] <= f.seen {
      if i > 0 {
        assert targets[i] == targets[1..][i - 1] && f.starts[i] == rest.starts[i - 1];
      }
    }
    forall i | 0 <= i < |targets| - 1 ensures f.starts[i] <= f.starts[i + 1] && targets[i] in f.starts[i + 1] {
      if i == 0 {
        assert f.starts[1] == rest.starts[0] == o.seen;
      } else {
        assert targets[i] == targets[1..][i - 1] && f.starts[i] == rest.starts[i - 1] && f.starts[i + 1] == rest.starts[i];
      }
    }
    forall i | 0 <= i < |targets| && f.results[i].Success? ensures targets[i] in f.processed {
      if i == 0 {
        assert o.processed[0] in o.processed;
      } else {
        assert targets[i] == targets[1..][i - 1] && f.results[i] == rest.results[i - 1];
        assert targets[i] in rest.processed;
      }
    }
  }

  /** One more read in front of a run of reads keeps ReadsVerdicts. */
  lemma ReadsVerdictsCons(fs: FileSystem, targets: seq<string>, seen: set<string>, o: Outcome, rest: Reads)
    requires |targets| > 0
    requires seen <= o.seen && targets[0] in o.seen
    requires o.result.Success? <==> targets[0] in fs && targets[0] !in seen
    requires o.result.Failure? ==>
      o.result.error == if targets[0] in seen then RecursiveInclude(targets[0]) else Unreadable(targets[0])
    requires |rest.starts| == |targets| - 1
    requires forall i :: 0 <= i < |targets| - 1 ==> o.seen <= rest.starts[i]
    requires ReadsVerdicts(fs, targets[1..], o.seen, rest)
    ensures ReadsVerdicts(fs, targets, seen, Reads([o.result] + rest.results, rest.seen, o.processed + rest.processed, [seen] + rest.starts))
  {
    var f := Reads([o.result] + rest.results, rest.seen, o.processed + rest.processed, [seen] + rest.starts);
    assert forall i :: 1 <= i < |targets| ==>
      targets[i] == targets[1..][i - 1] && f.results[i] == rest.results[i - 1] && f.starts[i] == rest.starts[i - 1];
    assert f.results[0] == o.result && f.starts[0] == seen;
  }

  /** One more read in front of a run of reads keeps ReadsContents. */
  lemma ReadsContentsCons(fs: FileSystem, env: Environment, targets: seq<string>, seen: set<string>, o: Outcome, rest: Reads)
    requires |targets| > 0
    requires o.result.Success? ==> targets[0] in fs
    requires o.result.Success? ==> forall k :: k in FileTable(fs[targets[0]], env).values ==> k in o.result.value
    requires o.result.Success? && IncludeKeys(FileTable(fs[targets[0]], env).keys) == [] ==>
      o.result.value == FileTable(fs[targets[0]], env).values
    requires ReadsContents(fs, env, targets[1..], rest)
    ensures ReadsContents(fs, env, targets, Reads([o.result] + rest.results, rest.seen, o.processed + rest.processed, [seen] + rest.starts))
  {
    var f := Reads([o.result] + rest.results, rest.seen, o.processed + rest.processed, [seen] + rest.starts);
    assert forall i :: 1 <= i < |targets| ==> targets[i] == targets[1..][i - 1] && f.results[i] == rest.results[i - 1];
    assert f.results[0] == o.result;
  }

  /** One more read in front of a run of reads keeps ReadsGrowth. */
  lemma ReadsGrowthCons(fs: FileSystem, env: Environment, targets: seq<string>, seen: set<string>, o: Outcome, rest: Reads)
    requires |targets| > 0
    requires o.result.Failure? ==> o.seen == seen + {targets[0]}
    requires o.result.Success? && targets[0] in fs && IncludeKeys(FileTable(fs[targets[0]], env).keys) == [] ==>
      o.seen == seen + {targets[0]}
    requires forall b :: b in fs && b in o.seen && b !in seen ==> b in o.processed
    requires ReadsGrowth(fs, env, targets[1..], o.seen, rest)
    requires |targets| > 1 ==> rest.starts[0] == o.seen
    ensures ReadsGrowth(fs, env, targets, seen, Reads([o.result] + rest.results, rest.seen, o.processed + rest.processed, [seen] + rest.starts))
  {
    var f := Reads([o.result] + rest.results, rest.seen, o.processed + rest.processed, [seen] + rest.starts);
    assert NextStart(f, 0) == o.seen by {
      if |targets| == 1 {
        assert targets[1..] == [];
      }
    }
    forall i | 0 <= i < |targets| && (f.results[i].Failure? || (targets[i] in fs && IncludeKeys(FileTable(fs[targets[i]], env).keys) == []))
      ensures NextStart(f, i) == f.starts[i] + {targets[i]}
    {
      if i > 0 {
        assert targets[i] == targets[1..][i - 1] && f.results[i] == rest.results[i - 1];
        assert f.starts[i] == rest.starts[i - 1] && NextStart(f, i) == NextStart(rest, i - 1);
      }
    }
    forall b | b in fs && b in f.seen && b !in seen ensures b in f.processed {
      if b in o.seen {
        assert b in o.processed;
      } else {
        assert b in rest.processed;
      }
    }
  }

  /** One more read in front of a run of reads keeps ReadsFit. */
  lemma ReadsFitCons(fs: FileSystem, env: Environment, targets: seq<string>, seen: set<string>, o: Outcome, rest: Reads)
    requires |targets| > 0
    requires seen <= o.seen && targets[0] in o.seen
    requires ProcessedOnce(fs, seen, o.seen, o.processed)
    requires o.result.Success? <==> targets[0] in fs && targets[0] !in seen
    requires o.result.Failure? ==>
      o.result.error == if targets[0] in seen then RecursiveInclude(targets[0]) else Unreadable(targets[0])
    requires o.result.Success? ==> o.processed != [] && o.processed[0] == targets[0]
    requires o.result.Success? ==> forall k :: k in FileTable(fs[targets[0]], env).values ==> k in o.result.value
    requires o.result.Success? && IncludeKeys(FileTable(fs[targets[0]], env).keys) == [] ==>
      o.result.value == FileTable(fs[targets[0]], env).values
    requires o.result.Failure? ==> o.seen == seen + {targets[0]}
    requires o.result.Success? && IncludeKeys(FileTable(fs[targets[0]], env).keys) == [] ==> o.seen == seen + {targets[0]}
    requires forall b :: b in fs && b in o.seen && b !in seen ==> b in o.processed
    requires ReadsFit(fs, env, targets[1..], o.seen, rest)
    ensures ReadsFit(fs, env, targets, seen, Reads([o.result] + rest.results, rest.seen, o.processed + rest.processed, [seen] + rest.starts))
  {
    ReadsTrailCons(fs, targets, seen, o, rest);
    ReadsVerdictsCons(fs, targets, seen, o, rest);
    ReadsContentsCons(fs, env, targets, seen, o, rest);
    ReadsGrowthCons(fs, env, targets, seen, o, rest);
  }

  /**
   * The loop of resolveIncludes: one read per include target, in table
   * order, each starting from the seen set the previous one left.
   */
  function IncludeFold(fs: FileSystem, env: Environment, targets: seq<string>, seen: set<string>): (f: Reads)
    ensures ReadsFit(fs, env, targets, seen, f)
    ensures targets == [] ==> f == Reads([], seen, [], [])
    decreases Unseen(fs, seen), 1, |targets|
  {
    if targets == [] then Reads([], seen, [], [])
    else
      var o := ReadFile(fs, env, targets[0], seen);
      UnseenMonotone(fs, seen, o.seen);
      var rest := IncludeFold(fs, env, targets[1..], o.seen);
      ReadsFitCons(fs, env, targets, seen, o, rest);
      Reads([o.result] + rest.results, rest.seen, o.processed + rest.processed, [seen] + rest.starts)
  }

  /** Read `i` is the last successful read that defines `k`. */
  ghost predicate LastProvider(rs: seq<Result<Config, ReadError>>, i: int, k: string) {
    0 <= i < |rs| && Provides(rs[i], k) && forall j :: i < j < |rs| ==> !Provides(rs[j], k)
  }

  /** The merge of the reads with its last read split off. */
  lemma MergeSuccessesSnoc(rs: seq<Result<Config, ReadError>>, k: string)
    requires rs != []
    ensures var m, last := MergeSuccesses(rs[..|rs| - 1]), rs[|rs| - 1];
      && (k in MergeSuccesses(rs) <==> k in m || Provides(last, k))
      && (Provides(last, k) ==> MergeSuccesses(rs)[k] == last.value[k])
      && (!Provides(last, k) && k in m ==> MergeSuccesses(rs)[k] == m[k])
  {
  }

  lemma {:induction false} MergeSuccessesKeys(rs: seq<Result<Config, ReadError>>, k: string)
    ensures k in MergeSuccesses(rs) <==> exists i :: 0 <= i < |rs| && Provides(rs[i], k)
  {
    if rs != [] {
      var front := rs[..|rs| - 1];
      MergeSuccessesKeys(front, k);
      MergeSuccessesSnoc(rs, k);
      if Provides(rs[|rs| - 1], k) {
      } else if k in MergeSuccesses(front) {
        var i :| 0 <= i < |front| && Provides(front[i], k);
        assert rs[i] == front[i];
      } else {
        forall i | 0 <= i < |rs| ensures !Provides(rs[i], k) {
          if i < |front| {
            assert rs[i] == front[i];
          }
        }
      }
    }
  }

  lemma {:induction false} MergeSuccessesValue(rs: seq<Result<Config, ReadError>>, k: string, i: int)
    requires LastProvider(rs, i, k)
    ensures k in MergeSuccesses(rs) && MergeSuccesses(rs)[k] == rs[i].value[k]
  {
    var front := rs[..|rs| - 1];
    MergeSuccessesSnoc(rs, k);
    if i < |rs| - 1 {
      assert !Provides(rs[|rs| - 1], k);
      assert forall j :: 0 <= j < |front| ==> front[j] == rs[j];
      assert LastProvider(front, i, k);
      MergeSuccessesValue(front, k, i);
    }
  }

  /**
   * The merge of the reads defines exactly the keys some successful read
   * defines, with the value of the last such read; failed reads contribute
   * nothing.
   */
  lemma {:induction false} MergeSuccessesMeaning(rs: seq<Result<Config, ReadError>>, k: string)
    ensures k in MergeSuccesses(rs) <==> exists i :: 0 <= i < |rs| && Provides(rs[i], k)
    ensures forall i :: LastProvider(rs, i, k) ==> k in MergeSuccesses(rs) && MergeSuccesses(rs)[k] == rs[i].value[k]
  {
    MergeSuccessesKeys(rs, k);
    forall i | LastProvider(rs, i, k) ensures k in MergeSuccesses(rs) && MergeSuccesses(rs)[k] == rs[i].value[k] {
      MergeSuccessesValue(rs, k, i);
    }
  }

  /**
   * The successful reads merged over a table: the table's keys and the
   * reads' keys, the last provider's value for a key some read defines, and
   * the table's value for every other key.
   */
  lemma MergeOverTable(cfg: Config, rs: seq<Result<Config, ReadError>>)
    ensures forall k :: k in cfg + MergeSuccesses(rs) <==>
      k in cfg || exists i :: 0 <= i < |rs| && Provides(rs[i], k)
    ensures forall k, i :: LastProvider(rs, i, k) ==> k in cfg + MergeSuccesses(rs) && (cfg + MergeSuccesses(rs))[k] == rs[i].value[k]
    ensures forall k :: k in cfg && (forall i :: 0 <= i < |rs| ==> !Provides(rs[i], k)) ==>
      (cfg + MergeSuccesses(rs))[k] == cfg[k]
  {
    MergeSuccessesMeaningAll(rs);
  }

  lemma MergeSuccessesMeaningAll(rs: seq<Result<Config, ReadError>>)
    ensures forall k :: k in MergeSuccesses(rs) <==> exists i :: 0 <= i < |rs| && Provides(rs[i], k)
    ensures forall k, i :: LastProvider(rs, i, k) ==> k in MergeSuccesses(rs) && MergeSuccesses(rs)[k] == rs[i].value[k]
  {
    forall k {
      MergeSuccessesMeaning(rs, k);
    }
  }

  /** The table a file yields before include expansion: overlay with trimming, then substitution. */
  function FileTable(raw: seq<Entry>, env: Environment): (p: Props)
    ensures Valid(p)
    ensures forall k :: k in p.values <==> k in Overlay(raw, env.frameworkId).values
  {
    ResolveVariables(Overlay(raw, env.frameworkId), env.sysProps, env.envVars)
  }

  /**
   * An include whose target is a file not yet seen is read: the first include
   * of a table succeeds, and every key of the target's own table is defined
   * in the expansion.
   */
  lemma FirstIncludeMerged(fs: FileSystem, env: Environment, props: Props, seen: set<string>)
    requires Valid(props) && IncludeKeys(props.keys) != []
    requires IncludeTargets(props)[0] in fs && IncludeTargets(props)[0] !in seen
    ensures var x, t := ResolveIncludes(fs, env, props, seen), IncludeTargets(props)[0];
      && x.fold.results[0].Success?
      && forall k :: k in FileTable(fs[t], env).values ==> k in x.config
  {
    var x := ResolveIncludes(fs, env, props, seen);
    assert x.fold.starts[0] == seen;
    forall k | k in FileTable(fs[IncludeTargets(props)[0]], env).values ensures k in x.config {
      assert Provides(x.fold.results[0], k);
    }
  }

  /** The distinct names in a run of names. */
  function Names(s: seq<string>): (r: set<string>)
    ensures forall t :: t in r <==> t in s
  {
    set t | t in s
  }

  /** The names of a prefix grow by the prefix's last name. */
  lemma PrefixNames(s: seq<string>, i: nat)
    requires 0 < i <= |s|
    ensures Names(s[..i]) == Names(s[..i - 1]) + {s[i - 1]}
  {
    assert s[..i] == s[..i - 1] + [s[i - 1]];
  }

  /** A read of a missing file or of a file without include keys adds exactly its target to the seen set. */
  lemma FlatStep(fs: FileSystem, env: Environment, targets: seq<string>, seen: set<string>, f: Reads, i: nat)
    requires ReadsGrowth(fs, env, targets, seen, f)
    requires 0 < i < |targets|
    requires f.results[i - 1].Success? ==> targets[i - 1] in fs
    requires targets[i - 1] !in fs || IncludeKeys(FileTable(fs[targets[i - 1]], env).keys) == []
    ensures f.starts[i] == f.starts[i - 1] + {targets[i - 1]}
  {
    assert NextStart(f, i - 1) == f.starts[i];
  }

  /**
   * While every earlier target is missing or a file without include keys,
   * each read starts from the caller's seen set plus the earlier targets.
   */
  lemma {:induction false} FlatRunStarts(fs: FileSystem, env: Environment, targets: seq<string>, seen: set<string>, f: Reads, i: nat)
    requires ReadsGrowth(fs, env, targets, seen, f)
    requires |targets| > 0 ==> f.starts[0] == seen
    requires forall j :: 0 <= j < |targets| && f.results[j].Success? ==> targets[j] in fs
    requires i < |targets|
    requires forall j :: 0 <= j < i ==> targets[j] !in fs || IncludeKeys(FileTable(fs[targets[j]], env).keys) == []
    ensures f.starts[i] == seen + Names(targets[..i])
  {
    if i == 0 {
      assert targets[..0] == [];
    } else {
      FlatRunStarts(fs, env, targets, seen, f, i - 1);
      FlatStep(fs, env, targets, seen, f, i);
      PrefixNames(targets, i);
    }
  }

  /**
   * An include is merged when its target is an existing file that is neither
   * seen before the expansion nor named by an earlier include, and every
   * earlier include names a missing file or a file without include keys:
   * that read succeeds and every key of the target's own table is defined in
   * the expansion.
   */
  lemma IncludeMerged(fs: FileSystem, env: Environment, props: Props, seen: set<string>, i: nat)
    requires Valid(props) && i < |IncludeKeys(props.keys)|
    requires IncludeTargets(props)[i] in fs && IncludeTargets(props)[i] !in seen
    requires IncludeTargets(props)[i] !in IncludeTargets(props)[..i]
    requires forall j :: 0 <= j < i ==>
      IncludeTargets(props)[j] !in fs || IncludeKeys(FileTable(fs[IncludeTargets(props)[j]], env).keys) == []
    ensures var x, t := ResolveIncludes(fs, env, props, seen), IncludeTargets(props)[i];
      && x.fold.results[i].Success?
      && forall k :: k in FileTable(fs[t], env).values ==> k in x.config
  {
    var x, targets := ResolveIncludes(fs, env, props, seen), IncludeTargets(props);
    FlatRunStarts(fs, env, targets, seen, x.fold, i);
    assert targets[i] !in x.fold.starts[i];
    forall k | k in FileTable(fs[targets[i]], env).values ensures k in x.config {
      assert Provides(x.fold.results[i], k);
    }
  }
}

=== FILE: overlay.dfy ===
/**
 * The framework-id overlay of ConfLoader.readOneConfigurationFile: a key
 * `%<id>.<rest>` is an override of `<rest>` that applies only when `<id>` is
 * the running framework id; every other key is taken as it is. Values are
 * trimmed on the way in.
 */
module Overlays {
  import opened Wrappers
  import opened Text
  import opened Properties

  /** The character class `[a-zA-Z0-9_\-]` of an id. */
  predicate IsIdChar(c: char) {
    ('a' <= c <= 'z') || ('A' <= c <= 'Z') || ('0' <= c <= '9') || c == '_' || c == '-'
  }

  /** `[a-zA-Z0-9_\-]+` */
  predicate IsId(s: string) {
    |s| > 0 && forall i :: 0 <= i < |s| ==> IsIdChar(s[i])
  }

  /** The key that overrides `rest` for the framework id `id`. */
  function OverlayKey(id: string, rest: string): string {
    "%" + id + "." + rest
  }

  /** `key` matches `^%([a-zA-Z0-9_\-]+)\.(.*)$` with `id` as group 1 and `rest` as group 2. */
  ghost predicate MatchesOverlay(key: string, id: string, rest: string) {
    key == OverlayKey(id, rest) && IsId(id) && SingleLine(rest)
  }

  /** The first index at or after `from` whose character is not an id character, or `|s|`. */
  function EndOfId(s: string, from: nat): (i: nat)
    requires from <= |s|
    ensures from <= i <= |s|
    ensures forall k :: from <= k < i ==> IsIdChar(s[k])
    ensures i < |s| ==> !IsIdChar(s[i])
    decreases |s| - from
  {
    if from == |s| || !IsIdChar(s[from]) then from else EndOfId(s, from + 1)
  }

  lemma {:induction false} EndOfIdAt(s: string, from: nat, p: nat)
    requires from <= p <= |s|
    requires forall k :: from <= k < p ==> IsIdChar(s[k])
    requires p == |s| || !IsIdChar(s[p])
    ensures EndOfId(s, from) == p
    decreases p - from
  {
    if from < p {
      EndOfIdAt(s, from + 1, p);
    }
  }

  /**
   * Matches a key against the overlay pattern and returns its two groups.
   * The id cannot contain a dot, so the split is at the first dot after `%`.
   */
  function SplitOverlayKey(key: string): (r: Option<(string, string)>)
    ensures r.Some? ==> MatchesOverlay(key, r.value.0, r.value.1)
  {
    if |key| == 0 || key[0] != '%' then None
    else
      var dot := EndOfId(key, 1);
      if dot == 1 || dot == |key| || key[dot] != '.' || !SingleLine(key[dot + 1..]) then None
      else
        var id, rest := key[1..dot], key[dot + 1..];
        assert key == OverlayKey(id, rest);
        Some((id, rest))
  }

  /** The split is exactly the regular expression's match: both directions. */
  lemma SplitOverlayKeyIff(key: string, id: string, rest: string)
    ensures SplitOverlayKey(key) == Some((id, rest)) <==> MatchesOverlay(key, id, rest)
  {
    if MatchesOverlay(key, id, rest) {
      var dot := 1 + |id|;
      assert forall k :: 1 <= k < dot ==> key[k] == id[k - 1];
      assert key[dot] == '.';
      EndOfIdAt(key, 1, dot);
      assert key[1..dot] == id;
      assert key[dot + 1..] == rest;
    }
  }

  /** A key the overlay pattern does not match; it is copied as it is. */
  predicate IsPlainKey(key: string) {
    SplitOverlayKey(key).None?
  }

  /** The keys of the plain lines, in file order, repeats included. */
  function PlainKeys(raw: seq<Entry>): seq<string> {
    if raw == [] then []
    else
      var e := raw[|raw| - 1];
      PlainKeys(raw[..|raw| - 1]) + (if IsPlainKey(e.key) then [e.key] else [])
  }

  /** The rests of the lines `%<id>.<rest>` for the id `id`, in file order, repeats included. */
  function InstanceRests(raw: seq<Entry>, id: string): seq<string> {
    if raw == [] then []
    else
      var e := raw[|raw| - 1];
      InstanceRests(raw[..|raw| - 1], id) +
        match SplitOverlayKey(e.key)
        case Some((instance, rest)) => if instance == id then [rest] else []
        case None => []
  }

  /** The first loop: every plain key is put with its trimmed value, in file order. */
  function PlainPass(raw: seq<Entry>): (p: Props)
    ensures Valid(p)
  {
    if raw == [] then Empty
    else
      var e := raw[|raw| - 1];
      var p := PlainPass(raw[..|raw| - 1]);
      if IsPlainKey(e.key) then Put(p, e.key, Trim(e.value)) else p
  }

  /**
   * The second loop: every key that matches the pattern with the current id
   * puts its trimmed value under the part after the dot; keys for other ids
   * are skipped.
   */
  function InstancePass(raw: seq<Entry>, id: string, base: Props): (p: Props)
    ensures Valid(base) ==> Valid(p)
  {
    if raw == [] then base
    else
      var e := raw[|raw| - 1];
      var p := InstancePass(raw[..|raw| - 1], id, base);
      match SplitOverlayKey(e.key)
      case Some((instance, rest)) => if instance == id then Put(p, rest, Trim(e.value)) else p
      case None => p
  }

  /** The table built from one file's lines for the framework id `id`. */
  function Overlay(raw: seq<Entry>, id: string): (p: Props)
    ensures Valid(p)
  {
    InstancePass(raw, id, PlainPass(raw))
  }

  /** The first loop lists the plain keys in the order of their first line. */
  lemma {:induction false} PlainPassOrder(raw: seq<Entry>)
    ensures PlainPass(raw).keys == FirstOccurrences(PlainKeys(raw))
  {
    if raw != [] {
      var e := raw[|raw| - 1];
      var init := raw[..|raw| - 1];
      PlainPassOrder(init);
      if IsPlainKey(e.key) {
        assert PlainKeys(raw) == PlainKeys(init) + [e.key];
        PutKeepsFirstOccurrences(PlainPass(init), e.key, Trim(e.value), PlainKeys(init));
      } else {
        assert PlainKeys(raw) == PlainKeys(init) + [] == PlainKeys(init);
      }
    }
  }

  /**
   * The second loop keeps the table's keys where they are and appends each
   * rest of the current id that the table does not hold yet, in the order of
   * its first line.
   */
  lemma {:induction false} InstancePassOrder(raw: seq<Entry>, id: string, base: Props)
    requires Valid(base)
    ensures InstancePass(raw, id, base).keys == FirstOccurrences(base.keys + InstanceRests(raw, id))
  {
    if raw == [] {
      assert base.keys + InstanceRests(raw, id) == base.keys;
      FirstOccurrencesOfDistinct(base.keys);
    } else {
      var e := raw[|raw| - 1];
      var init := raw[..|raw| - 1];
      InstancePassOrder(init, id, base);
      var p := InstancePass(init, id, base);
      match SplitOverlayKey(e.key)
      case Some((instance, rest)) =>
        if instance == id {
          assert base.keys + InstanceRests(raw, id) == base.keys + InstanceRests(init, id) + [rest];
          PutKeepsFirstOccurrences(p, rest, Trim(e.value), base.keys + InstanceRests(init, id));
        } else {
          assert base.keys + InstanceRests(raw, id) == base.keys + InstanceRests(init, id);
        }
      case None =>
        assert base.keys + InstanceRests(raw, id) == base.keys + InstanceRests(init, id);
    }
  }

  /**
   * The key order of the table: the plain keys in the order of their first
   * line, then the current id's overrides of keys not already present, in
   * the order of their first line.
   */
  lemma OverlayOrder(raw: seq<Entry>, id: string)
    ensures Overlay(raw, id).keys == FirstOccurrences(PlainKeys(raw) + InstanceRests(raw, id))
  {
    PlainPassOrder(raw);
    InstancePassOrder(raw, id, PlainPass(raw));
    FirstOccurrencesAbsorb(PlainKeys(raw), InstanceRests(raw, id));
  }

  /** The file holds an override of `k` for the framework id `id`. */
  ghost predicate Selected(raw: seq<Entry>, id: string, k: string) {
    IsId(id) && SingleLine(k) && OverlayKey(id, k) in Loaded(raw)
  }

  lemma {:induction false} PlainPassMeaning(raw: seq<Entry>, k: string)
    ensures k in PlainPass(raw).values <==> k in Loaded(raw) && IsPlainKey(k)
    ensures k in PlainPass(raw).values ==> PlainPass(raw).values[k] == Trim(Loaded(raw)[k])
  {
    if raw != [] {
      PlainPassMeaning(raw[..|raw| - 1], k);
    }
  }

  lemma {:induction false} InstancePassMeaning(raw: seq<Entry>, id: string, base: Props, k: string)
    ensures k in InstancePass(raw, id, base).values <==> k in base.values || Selected(raw, id, k)
    ensures k in InstancePass(raw, id, base).values ==>
      InstancePass(raw, id, base).values[k]
        == if Selected(raw, id, k) then Trim(Loaded(raw)[OverlayKey(id, k)]) else base.values[k]
  {
    if raw != [] {
      var e := raw[|raw| - 1];
      InstancePassMeaning(raw[..|raw| - 1], id, base, k);
      SplitOverlayKeyIff(e.key, id, k);
    }
  }

  /**
   * The overlay, stated against the loaded file: the output keys are exactly
   * the plain keys plus the keys overridden for the current id; an override
   * wins over a plain entry of the same name; every value is trimmed.
   */
  lemma OverlayMeaning(raw: seq<Entry>, id: string, k: string)
    ensures k in Overlay(raw, id).values
      <==> (k in Loaded(raw) && IsPlainKey(k)) || Selected(raw, id, k)
    ensures k in Overlay(raw, id).values ==>
      Overlay(raw, id).values[k]
        == Trim(if Selected(raw, id, k) then Loaded(raw)[OverlayKey(id, k)] else Loaded(raw)[k])
  {
    PlainPassMeaning(raw, k);
    InstancePassMeaning(raw, id, PlainPass(raw), k);
  }

  lemma {:induction false} PlainPassSkips(a: seq<Entry>, e: Entry, b: seq<Entry>)
    requires !IsPlainKey(e.key)
    ensures PlainPass(a + [e] + b) == PlainPass(a + b)
    decreases |b|
  {
    if b == [] {
      assert (a + [e] + b)[..|a| + 1 - 1] == a + b;
    } else {
      var b' := b[..|b| - 1];
      assert (a + [e] + b)[..|a + [e] + b| - 1] == a + [e] + b';
      assert (a + b)[..|a + b| - 1] == a + b';
      PlainPassSkips(a, e, b');
    }
  }

  lemma {:induction false} InstancePassSkips(a: seq<Entry>, e: Entry, b: seq<Entry>, id: string, base: Props)
    requires SplitOverlayKey(e.key).None? || SplitOverlayKey(e.key).value.0 != id
    ensures InstancePass(a + [e] + b, id, base) == InstancePass(a + b, id, base)
    decreases |b|
  {
    if b == [] {
      assert (a + [e] + b)[..|a| + 1 - 1] == a + b;
    } else {
      var b' := b[..|b| - 1];
      assert (a + [e] + b)[..|a + [e] + b| - 1] == a + [e] + b';
      assert (a + b)[..|a + b| - 1] == a + b';
      InstancePassSkips(a, e, b', id, base);
    }
  }

  /**
   * A line `%<other>.<rest>` for an id other than the running one contributes
   * nothing, wherever it stands in the file: not its key, not its value and
   * not its position in the order.
   */
  lemma OtherIdIgnored(a: seq<Entry>, e: Entry, b: seq<Entry>, id: string)
    requires SplitOverlayKey(e.key).Some? && SplitOverlayKey(e.key).value.0 != id
    ensures Overlay(a + [e] + b, id) == Overlay(a + b, id)
  {
    PlainPassSkips(a, e, b);
    InstancePassSkips(a, e, b, id, PlainPass(a + b));
  }
}

=== FILE: properties.dfy ===
/**
 * The two shapes a properties file takes in the loader: the raw key/value
 * lines as they were read, and the insertion-ordered table the loader builds
 * from them.
 */
module Properties {

  /** One `key=value` line of a properties file. */
  datatype Entry = Entry(key: string, value: string)

  /** The effective configuration once loading is over. */
  type Config = map<string, string>

  /**
   * An insertion-ordered properties table: `values` holds the mapping and
   * `keys` the order in which keys were first put. Iterating over the table
   * visits the keys in that order.
   */
  datatype Props = Props(keys: seq<string>, values: Config)

  predicate NoDuplicates<T(==)>(s: seq<T>) {
    forall i, j :: 0 <= i < j < |s| ==> s[i] != s[j]
  }

  /** The order lists every key of the mapping exactly once. */
  ghost predicate Valid(p: Props) {
    && NoDuplicates(p.keys)
    && (forall k :: k in p.values <==> k in p.keys)
  }

  const Empty: Props := Props([], map[])

  /**
   * `put`: the value for `k` becomes `v`; a new key goes to the end of the
   * order, an existing key keeps its place.
   */
  function Put(p: Props, k: string, v: string): (r: Props)
    ensures k in r.values && r.values[k] == v
    ensures forall k' :: k' != k ==> (k' in r.values <==> k' in p.values)
    ensures forall k' :: k' != k && k' in p.values ==> r.values[k'] == p.values[k']
    ensures k in p.values ==> r.keys == p.keys
    ensures k !in p.values ==> r.keys == p.keys + [k]
    ensures Valid(p) ==> Valid(r)
  {
    Props(if k in p.values then p.keys else p.keys + [k], p.values[k := v])
  }

  /** The elements of `s` in the order of their first occurrence, each once. */
  function FirstOccurrences(s: seq<string>): (r: seq<string>)
    ensures forall x :: x in r <==> x in s
    ensures NoDuplicates(r)
  {
    if s == [] then []
    else
      var r := FirstOccurrences(s[..|s| - 1]);
      if s[|s| - 1] in s[..|s| - 1] then r else r + [s[|s| - 1]]
  }

  /** A sequence without duplicates is its own first-occurrence order. */
  lemma {:induction false} FirstOccurrencesOfDistinct(s: seq<string>)
    requires NoDuplicates(s)
    ensures FirstOccurrences(s) == s
  {
    if s != [] {
      var init := s[..|s| - 1];
      assert NoDuplicates(init);
      FirstOccurrencesOfDistinct(init);
      assert s[|s| - 1] !in init;
      assert init + [s[|s| - 1]] == s;
    }
  }

  /** Appending one element: it goes last unless it occurred already. */
  lemma FirstOccurrencesSnoc(s: seq<string>, x: string)
    ensures FirstOccurrences(s + [x]) == if x in s then FirstOccurrences(s) else FirstOccurrences(s) + [x]
  {
    assert (s + [x])[..|s|] == s;
  }

  /** Dropping repeats early changes nothing: `t`'s elements still go after `s`'s. */
  lemma {:induction false} FirstOccurrencesAbsorb(s: seq<string>, t: seq<string>)
    ensures FirstOccurrences(FirstOccurrences(s) + t) == FirstOccurrences(s + t)
  {
    if t == [] {
      assert s + t == s;
      assert FirstOccurrences(s) + t == FirstOccurrences(s);
      FirstOccurrencesOfDistinct(FirstOccurrences(s));
    } else {
      var u, x := t[..|t| - 1], t[|t| - 1];
      FirstOccurrencesAbsorb(s, u);
      assert FirstOccurrences(s) + t == (FirstOccurrences(s) + u) + [x];
      assert s + t == (s + u) + [x];
      FirstOccurrencesSnoc(FirstOccurrences(s) + u, x);
      FirstOccurrencesSnoc(s + u, x);
    }
  }

  /**
   * Putting keys one by one keeps them in first-insertion order: when a
   * table's keys are the first occurrences of `s`, putting `k` leaves them
   * the first occurrences of `s + [k]`.
   */
  lemma PutKeepsFirstOccurrences(p: Props, k: string, v: string, s: seq<string>)
    requires Valid(p) && p.keys == FirstOccurrences(s)
    ensures Put(p, k, v).keys == FirstOccurrences(s + [k])
  {
    FirstOccurrencesSnoc(s, k);
  }

  /** The mapping a file denotes when it is loaded: a later line for a key replaces an earlier one. */
  function Loaded(raw: seq<Entry>): Config
  {
    if raw == [] then map[]
    else
      var last := raw[|raw| - 1];
      Loaded(raw[..|raw| - 1])[last.key := last.value]
  }

  /**
   * Loading keeps a key exactly when some line has it, and its value is the
   * one on the last line that has it.
   */
  lemma {:induction false} LoadedLastWins(raw: seq<Entry>, k: string)
    ensures k in Loaded(raw) <==> exists i :: 0 <= i < |raw| && raw[i].key == k
    ensures forall i :: 0 <= i < |raw| && raw[i].key == k && (forall j :: i < j < |raw| ==> raw[j].key != k) ==>
      k in Loaded(raw) && Loaded(raw)[k] == raw[i].value
  {
    if raw != [] {
      var init := raw[..|raw| - 1];
      LoadedLastWins(init, k);
      assert forall i :: 0 <= i < |init| ==> init[i] == raw[i];
    }
  }
}

=== FILE: text.dfy ===
/** Character classes and string helpers that the configuration loader relies on. */
module Text {

  /** The characters `String.trim` strips: every code point up to and including the space. */
  predicate IsBlank(c: char) {
    c <= ' '
  }

  predicate AllBlank(s: string) {
    forall i :: 0 <= i < |s| ==> IsBlank(s[i])
  }

  /** The line terminators that `.` in a java.util.regex pattern refuses to match. */
  predicate IsLineTerminator(c: char) {
    c == '\n' || c == '\r' || c == '\U{0085}' || c == '\U{2028}' || c == '\U{2029}'
  }

  /** True iff `.*` can consume the whole of `s`. */
  predicate SingleLine(s: string) {
    forall i :: 0 <= i < |s| ==> !IsLineTerminator(s[i])
  }

  /** The `\d` character class. */
  predicate IsDigit(c: char) {
    '0' <= c <= '9'
  }

  predicate AllDigits(s: string) {
    forall i :: 0 <= i < |s| ==> IsDigit(s[i])
  }

  /** `String.startsWith`. */
  predicate StartsWith(s: string, prefix: string) {
    |prefix| <= |s| && s[..|prefix|] == prefix
  }

  /** Every character of `s` in `[lo, hi)` is blank. */
  predicate BlankBetween(s: string, lo: nat, hi: nat)
    requires lo <= hi <= |s|
  {
    forall k :: lo <= k < hi ==> IsBlank(s[k])
  }

  /** The first index at or after `from` that is not blank, or `|s|`. */
  function FirstNonBlank(s: string, from: nat): (i: nat)
    requires from <= |s|
    ensures from <= i <= |s|
    ensures BlankBetween(s, from, i)
    ensures i < |s| ==> !IsBlank(s[i])
    decreases |s| - from
  {
    if from == |s| || !IsBlank(s[from]) then from else FirstNonBlank(s, from + 1)
  }

  /** One past the last index in `[lo, hi)` that is not blank, or `lo`. */
  function LastNonBlank(s: string, lo: nat, hi: nat): (j: nat)
    requires lo <= hi <= |s|
    ensures lo <= j <= hi
    ensures BlankBetween(s, j, hi)
    ensures j > lo ==> !IsBlank(s[j - 1])
    decreases hi - lo
  {
    if hi == lo || !IsBlank(s[hi - 1]) then hi else LastNonBlank(s, lo, hi - 1)
  }

  /** Where `String.trim` cuts `s`: the first non-blank character and one past the last. */
  function TrimBounds(s: string): (b: (nat, nat))
    ensures b.0 <= b.1 <= |s|
    ensures BlankBetween(s, 0, b.0) && BlankBetween(s, b.1, |s|)
    ensures b.0 < b.1 ==> !IsBlank(s[b.0]) && !IsBlank(s[b.1 - 1])
  {
    var i := FirstNonBlank(s, 0);
    (i, LastNonBlank(s, i, |s|))
  }

  /** `String.trim`: `s` without its blank prefix and blank suffix. */
  function Trim(s: string): (r: string)
    ensures |r| <= |s|
    ensures r == [] || (!IsBlank(r[0]) && !IsBlank(r[|r| - 1]))
  {
    var b := TrimBounds(s);
    s[b.0..b.1]
  }

  lemma {:induction false} FirstNonBlankAt(s: string, from: nat, p: nat)
    requires from <= p <= |s|
    requires BlankBetween(s, from, p)
    requires p == |s| || !IsBlank(s[p])
    ensures FirstNonBlank(s, from) == p
    decreases p - from
  {
    if from < p {
      FirstNonBlankAt(s, from + 1, p);
    }
  }

  lemma {:induction false} LastNonBlankAt(s: string, lo: nat, hi: nat, q: nat)
    requires lo <= q <= hi <= |s|
    requires BlankBetween(s, q, hi)
    requires q == lo || !IsBlank(s[q - 1])
    ensures LastNonBlank(s, lo, hi) == q
    decreases hi - q
  {
    if q < hi {
      LastNonBlankAt(s, lo, hi - 1, q);
    }
  }

  /**
   * Trim is characterised without reference to how it scans: whenever `s` is a
   * blank prefix, a middle part that neither starts nor ends with a blank, and
   * a blank suffix, trimming yields exactly the middle part.
   */
  lemma TrimUnique(s: string, pre: string, mid: string, suf: string)
    requires s == pre + mid + suf
    requires AllBlank(pre) && AllBlank(suf)
    requires mid == [] || (!IsBlank(mid[0]) && !IsBlank(mid[|mid| - 1]))
    ensures Trim(s) == mid
  {
    var p, q := |pre|, |pre| + |mid|;
    assert forall k :: 0 <= k < p ==> s[k] == pre[k];
    assert forall k :: q <= k < |s| ==> s[k] == suf[k - q];
    if mid == [] {
      FirstNonBlankAt(s, 0, |s|);
      LastNonBlankAt(s, |s|, |s|, |s|);
    } else {
      assert s[p] == mid[0];
      assert s[q - 1] == mid[|mid| - 1];
      FirstNonBlankAt(s, 0, p);
      LastNonBlankAt(s, p, |s|, q);
      assert s[p..q] == mid;
    }
  }

  /** Trimming twice is trimming once. */
  lemma TrimIdempotent(s: string)
    ensures Trim(Trim(s)) == Trim(s)
  {
    var r := Trim(s);
    assert r == [] + r + [];
    TrimUnique(r, [], r, []);
  }
}

=== FILE: variables.dfy ===
/**
 * Variable substitution of ConfLoader.resolveVariables: every `${name}` in a
 * value is replaced by the system property `name`, or failing that by the
 * environment variable `name`, in one left-to-right pass over the value.
 */
module Variables {
  import opened Wrappers
  import opened Properties

  /** A partial lookup by name, such as `System.getProperty` or `System.getenv`. */
  type Lookup = string -> Option<string>

  /** The first index at or after `from` that holds `}`, or `|s|`. */
  function CloseBrace(s: string, from: nat): (i: nat)
    requires from <= |s|
    ensures from <= i <= |s|
    ensures forall k :: from <= k < i ==> s[k] != '}'
    ensures i < |s| ==> s[i] == '}'
    decreases |s| - from
  {
    if from == |s| || s[from] == '}' then from else CloseBrace(s, from + 1)
  }

  lemma {:induction false} CloseBraceAt(s: string, from: nat, p: nat)
    requires from <= p < |s|
    requires forall k :: from <= k < p ==> s[k] != '}'
    requires s[p] == '}'
    ensures CloseBrace(s, from) == p
    decreases p - from
  {
    if from < p {
      CloseBraceAt(s, from + 1, p);
    }
  }

  /** `v` begins with a match of `\$\{([^}]+)}` whose group 1 is `name`. */
  ghost predicate StartsWithPlaceholder(v: string, name: string) {
    |name| > 0 && '}' !in name && "${" + name + "}" <= v
  }

  /** The placeholder name if a match of the pattern starts at the front of `v`. */
  function PlaceholderAt(v: string): (r: Option<string>)
    ensures r.Some? ==> StartsWithPlaceholder(v, r.value)
  {
    if |v| < 2 || v[0] != '$' || v[1] != '{' then None
    else
      var close := CloseBrace(v, 2);
      if close == 2 || close == |v| then None
      else
        var name := v[2..close];
        assert "${" + name + "}" == v[..close + 1];
        Some(name)
  }

  /** The pattern matches at the front of `v` exactly when `v` starts with `${name}`. */
  lemma PlaceholderAtIff(v: string, name: string)
    ensures PlaceholderAt(v) == Some(name) <==> StartsWithPlaceholder(v, name)
  {
    if StartsWithPlaceholder(v, name) {
      var close := 2 + |name|;
      assert forall k :: 2 <= k < close ==> v[k] == name[k - 2];
      assert v[close] == '}';
      CloseBraceAt(v, 2, close);
      assert v[2..close] == name;
    }
  }

  /** What a placeholder stands for: the system property, else the environment variable, else itself. */
  function Resolve(name: string, sys: Lookup, env: Lookup): string {
    match sys(name)
    case Some(r) => r
    case None =>
      match env(name)
      case Some(r) => r
      case None => "${" + name + "}"
  }

  /**
   * One pass of find/appendReplacement/appendTail over `v`: each match is
   * replaced by what it resolves to (an unresolved one stays as it is) and the
   * search resumes after the match, so replacement text is never rescanned.
   */
  function Substitute(v: string, sys: Lookup, env: Lookup): string
    decreases |v|
  {
    if v == [] then []
    else
      match PlaceholderAt(v)
      case Some(name) => Resolve(name, sys, env) + Substitute(v[|name| + 3..], sys, env)
      case None => [v[0]] + Substitute(v[1..], sys, env)
  }

  /** The pattern matches somewhere in `v`. */
  predicate HasPlaceholder(v: string) {
    exists i :: 0 <= i < |v| && PlaceholderAt(v[i..]).Some?
  }

  /** A value in which the pattern finds no match comes out unchanged. */
  lemma {:induction false} NoPlaceholderUnchanged(v: string, sys: Lookup, env: Lookup)
    requires !HasPlaceholder(v)
    ensures Substitute(v, sys, env) == v
    decreases |v|
  {
    if v != [] {
      assert v[0..] == v;
      assert forall i :: 0 <= i < |v| - 1 ==> v[1..][i..] == v[i + 1..];
      NoPlaceholderUnchanged(v[1..], sys, env);
    }
  }

  lemma SubstituteUnmatched(v: string, sys: Lookup, env: Lookup)
    requires v != [] && PlaceholderAt(v) == None
    ensures Substitute(v, sys, env) == [v[0]] + Substitute(v[1..], sys, env)
  {
  }

  lemma SubstituteMatched(name: string, rest: string, sys: Lookup, env: Lookup)
    requires |name| > 0 && '}' !in name
    ensures Substitute("${" + name + "}" + rest, sys, env) == Resolve(name, sys, env) + Substitute(rest, sys, env)
  {
    var v := "${" + name + "}" + rest;
    PlaceholderAtIff(v, name);
    assert v[|name| + 3..] == rest;
  }

  /** No match of the pattern starts at any of the first `n` positions of `v`. */
  predicate NoMatchBefore(v: string, n: nat)
    requires n <= |v|
  {
    forall i :: 0 <= i < n ==> PlaceholderAt(v[i..]).None?
  }

  lemma NoMatchBeforeTail(v: string, n: nat)
    requires 0 < n <= |v| && NoMatchBefore(v, n)
    ensures PlaceholderAt(v) == None && NoMatchBefore(v[1..], n - 1)
  {
    assert v[0..] == v;
    forall i | 0 <= i < n - 1 ensures PlaceholderAt(v[1..][i..]).None? {
      assert v[1..][i..] == v[i + 1..];
    }
  }

  /**
   * The first placeholder: when no match of the pattern starts inside the
   * literal text before it (that text may still hold a `${` that starts no
   * match, such as `${}`), the placeholder is replaced by what it resolves to
   * and the scan resumes with the text after its `}`, independently of the
   * replacement.
   */
  lemma {:induction false} SubstituteFirst(lit: string, name: string, rest: string, sys: Lookup, env: Lookup)
    requires NoMatchBefore(lit + "${" + name + "}" + rest, |lit|)
    requires |name| > 0 && '}' !in name
    ensures Substitute(lit + "${" + name + "}" + rest, sys, env)
         == lit + Resolve(name, sys, env) + Substitute(rest, sys, env)
    decreases |lit|
  {
    var tail := "${" + name + "}" + rest;
    var out := Resolve(name, sys, env) + Substitute(rest, sys, env);
    assert lit + "${" + name + "}" + rest == lit + tail;
    assert lit + Resolve(name, sys, env) + Substitute(rest, sys, env) == lit + out;
    if lit == [] {
      assert lit + tail == tail;
      assert lit + out == out;
      SubstituteMatched(name, rest, sys, env);
    } else {
      var v := lit + tail;
      NoMatchBeforeTail(v, |lit|);
      SubstituteUnmatched(v, sys, env);
      assert v[1..] == lit[1..] + tail;
      assert lit[1..] + "${" + name + "}" + rest == v[1..];
      SubstituteFirst(lit[1..], name, rest, sys, env);
      assert lit[1..] + "${" + name + "}" + rest == lit[1..] + tail;
      assert lit[1..] + Resolve(name, sys, env) + Substitute(rest, sys, env) == lit[1..] + out;
      assert [v[0]] + (lit[1..] + out) == lit + out;
    }
  }

  /**
   * `${}` is no match, because a name needs at least one character: the scan
   * passes over it and replaces the `${a}` after it.
   */
  lemma EmptyBracesSkipped(sys: Lookup, env: Lookup)
    ensures Substitute("${}${a}", sys, env) == "${}" + Resolve("a", sys, env)
  {
    var v := "${}" + "${" + "a" + "}" + "";
    assert v == "${}${a}";
    assert v[1..][0] == '{' && v[2..][0] == '}';
    assert v[0..][2] == '}';
    assert CloseBrace(v[0..], 2) == 2;
    SubstituteFirst("${}", "a", "", sys, env);
    assert Substitute("", sys, env) == "";
  }

  /** With lookups that know no names, substitution is the identity. */
  lemma {:induction false} UnresolvedIdentity(v: string, sys: Lookup, env: Lookup)
    requires forall n :: sys(n) == None && env(n) == None
    ensures Substitute(v, sys, env) == v
    decreases |v|
  {
    if v != [] {
      match PlaceholderAt(v)
      case Some(name) =>
        assert v == "${" + name + "}" + v[|name| + 3..];
        UnresolvedIdentity(v[|name| + 3..], sys, env);
      case None =>
        UnresolvedIdentity(v[1..], sys, env);
    }
  }

  lemma SubstituteFixesPlainValues(sys: Lookup, env: Lookup)
    ensures forall v :: !HasPlaceholder(v) ==> Substitute(v, sys, env) == v
  {
    forall v | !HasPlaceholder(v) ensures Substitute(v, sys, env) == v {
      NoPlaceholderUnchanged(v, sys, env);
    }
  }

  /**
   * resolveVariables: the same keys in the same order, each value substituted
   * on its own; a value in which no placeholder is found is left alone.
   */
  function ResolveVariables(p: Props, sys: Lookup, env: Lookup): (r: Props)
    ensures r.keys == p.keys
    ensures forall k :: k in r.values <==> k in p.values
    ensures forall k :: k in p.values ==> r.values[k] == Substitute(p.values[k], sys, env)
    ensures forall k :: k in p.values && !HasPlaceholder(p.values[k]) ==> r.values[k] == p.values[k]
    ensures Valid(p) ==> Valid(r)
  {
    SubstituteFixesPlainValues(sys, env);
    Props(p.keys, map k | k in p.values :: Substitute(p.values[k], sys, env))
  }

  /** `r.replaceAll("\\\\", "\\\\\\\\")`: every backslash doubled. */
  function EscapeBackslashes(r: string): (e: string)
    ensures forall c :: c in e <==> c in r
    ensures |e| >= |r|
  {
    if r == [] then []
    else (if r[0] == '\\' then "\\\\" else [r[0]]) + EscapeBackslashes(r[1..])
  }

  /**
   * How `Matcher.appendReplacement` reads a replacement string: a backslash
   * takes the next character literally. A trailing backslash is an error and
   * a `$` starts a group reference; both give None here.
   */
  function ReplacementText(t: string): Option<string>
    decreases |t|
  {
    if t == [] then Some([])
    else if t[0] == '$' then None
    else if t[0] == '\\' then
      if |t| == 1 then None
      else
        match ReplacementText(t[2..])
        case Some(u) => Some([t[1]] + u)
        case None => None
    else
      match ReplacementText(t[1..])
      case Some(u) => Some([t[0]] + u)
      case None => None
  }

  /** For a resolved value without `$`, the escaping makes the appended text the value itself. */
  lemma {:induction false} EscapedReplacementIsLiteral(r: string)
    requires '$' !in r
    ensures ReplacementText(EscapeBackslashes(r)) == Some(r)
  {
    if r != [] {
      var t := EscapeBackslashes(r);
      EscapedReplacementIsLiteral(r[1..]);
      if r[0] == '\\' {
        assert t[2..] == EscapeBackslashes(r[1..]);
      } else {
        assert t[1..] == EscapeBackslashes(r[1..]);
      }
      assert r == [r[0]] + r[1..];
    }
  }
}

=== FILE: wrappers.dfy ===
/** Plain option and result datatypes used throughout the configuration loader model. */
module Wrappers {

  /** An optional value: the model's stand-in for a Java `null` return. */
  datatype Option<+T> = None | Some(value: T)

  /** The outcome of an operation that can throw: a value or the error that ended it. */
  datatype Result<+R, +E> = Success(value: R) | Failure(error: E)
}
